=== FILE: README.md ===
# Regularized evolution over loss-function programs

A Dafny model of the evolutionary search controller of the DNA generator in
`evolving_rl/evolution.py`: the regularized-evolution loop
(`CGSRegularizedEvolution`) and its point mutator (`DAGPointMutator`).

- **Programs** (`programs.dfy`): a program specification is a list of
  `(operator index, input indices)` nodes plus a loss weight, a duplicate
  flag, a cached reward and a fingerprint. A genome (`Dna`) is a
  specification bound to a search space. The collaborators the code calls
  but does not define are function-valued fields of `Env` and `Catalogue`:
  the program builder, the fingerprint of a compiled program, the
  input-combination enumerator, the operator precheck and output-type
  inference. Every property below therefore holds whatever they do, except
  that the input-combination enumerator must stay within the range it is
  given (`CombosWithin`).
  `random.choice` is `Choose(xs, pick)`, with the draw passed in. Python's
  `s[:k]` is `PyPrefix`.
- **Duplicate tracker** (`duplicates.dfy`): a map from fingerprint to the
  reward last recorded for it. The lookup answers `(fp, true, reward)` or
  `(fp, false, 0)`. Recording is last-write-wins.
- **Mutation** (`mutation.dfy`):
  - choosing the target node;
  - enumerating and filtering candidate `(operator, inputs)` pairs;
  - splicing the chosen pair into the program list;
  - the loss-weight-only branch;
  - the retry loop of `mutate`.
- **Evolution** (`evolution.dfy`):
  - setup's size checks;
  - `propose`, a fresh sample while warming up and then a tournament plus a mutation;
  - `feedback`, which records the reward, appends the individual and evicts the oldest.

Decisions worth knowing when reading the model against the code:

- Candidate inputs for node `node_idx` come from `ops_lst[:node_idx - 1]`, as
  written. The node immediately before the target is never offered as an
  input (`CandidateInputsPrecedeTarget`). With no input nodes and no frozen
  operators, node 0 can be chosen. Python then reads `ops_lst[:-1]`, and
  `PyPrefix` reproduces that.
- After the loss-weight-only branch, `mutate` still rebuilds the program and
  runs the duplicate check, like after a structural change. The model follows
  the code in this.
- A duplicate reports the reward recorded *last* for its fingerprint
  (last-write-wins), not the first.
- A structural mutation constructs its specification from the program list
  alone, so the loss weight falls back to the class default. `lossWeight ==
  None` stands for that default (`StructuralMutationDropsLossWeight`).
- The set of non-loss operator classes is walked in catalogue order of first
  occurrence, and each class is tagged with its first catalogue index. Python
  iterates a set in an unspecified order. The order only decides which draw
  picks which pair, not which pairs are valid.

## Model

| member | source | states |
|---|---|---|
| `Duplicates.CheckDuplicate` | evolving_rl/evolution.py:71-76 | reports duplicate exactly when the fingerprint is a key, with its recorded reward, and reward 0 otherwise; the fingerprint is returned unchanged |
| `Duplicates.Record` | evolving_rl/evolution.py:78-83 | the key set gains the fingerprint, the fingerprint maps to the new reward even if it was present before, every other entry is unchanged |
| `Duplicates.RecordThenCheck` | evolving_rl/evolution.py:71-83 | a fingerprint just recorded is reported as a duplicate with that reward; any other fingerprint gets the same answer as before |
| `Mutation.NewMutator` | evolving_rl/evolution.py:48-51 | a freshly bound mutator keeps its configuration and reports every fingerprint as unseen, with reward 0 |
| `Mutation.UpdateOutputDict` | evolving_rl/evolution.py:78-83 | after recording a genome, its fingerprint reads back as a duplicate with the given reward and every other fingerprint's answer is unchanged |
| `Programs.Choose` | evolving_rl/evolution.py:191 | a draw fails exactly on an empty list, otherwise yields a member of the list; every position is reachable by some draw |
| `Programs.PyPrefix` | evolving_rl/evolution.py:166 | Python prefix slicing: the length for non-negative and negative bounds, and the result is a prefix of the list |
| `Mutation.SampleNodeIdx` | evolving_rl/evolution.py:137-154 | succeeds iff some index past the inputs and frozen operators remains (two when the loss node is excluded); the target lies in `[inputs + frozen, len(ops_lst))`, below `len(ops_lst) - 1` when the loss weight is not adjustable, and its program-list position is at least the number of frozen operators |
| `Mutation.SampleNodeIdxReachesEvery` | evolving_rl/evolution.py:141-148 | every admissible target index is produced by some draw |
| `Mutation.Splice` | evolving_rl/evolution.py:192-198 | the rebuilt list has the same length, holds the chosen pair at the target position and the old entry everywhere else |
| `Mutation.PairsFrom` | evolving_rl/evolution.py:168-187 | every pair collected from operator index `i` onwards is a valid pair with operator index at least `i` |
| `Mutation.ValidPairs` | evolving_rl/evolution.py:166-187 | every pair in the candidate list uses a non-loss operator, an enumerated input combination within the candidate inputs, passes the precheck, and keeps the replaced node's output type when the target is not a leaf |
| `Mutation.ValidPairsExact` | evolving_rl/evolution.py:166-187 | a pair is in the candidate list if and only if it satisfies those filters |
| `Mutation.CandidateInputsPrecedeTarget` | evolving_rl/evolution.py:166 | for a target past node 0, every input index of a candidate is below `node_idx - 1` |
| `Mutation.AlterContinuous` | evolving_rl/evolution.py:200-203 | succeeds iff the last compiled node is a loss node with at least one allowed weight; the program list is returned unchanged with a loss weight drawn from those weights; a failure is a missing loss node or an empty weight list |
| `Mutation.AlterContinuousReachesEvery` | evolving_rl/evolution.py:200-203 | every weight the last node allows is drawn by some pick, with the program list unchanged |
| `Mutation.AlterStructural` | evolving_rl/evolution.py:163-198 | for a drawn non-loss target, succeeds iff the candidate list is non-empty and otherwise raises the empty-list error; on success the loss weight is at its default and the list is the old one with a valid candidate written at the target position |
| `Mutation.AlterStructuralReachesEvery` | evolving_rl/evolution.py:189-198 | every valid candidate for the target position is drawn by some pick and written there |
| `Mutation.AlterNodeIdx` | evolving_rl/evolution.py:156-198 | succeeds exactly when a target is drawn and then either the target is the loss node and the last node allows some weight, or the candidate list for the target is non-empty; a failed target draw and an empty candidate list raise their errors; on success the result is a point mutation of the program list (same length, frozen prefix kept, at most one position changed, a changed position holds a valid candidate for a mutable non-loss target); a structural round writes a member of the candidate list at the drawn target position, even when it equals the old entry, and leaves every other position alone; the loss-weight branch leaves the list unchanged and draws an allowed weight |
| `Mutation.AlterNodeIdxReachesEveryCandidate` | evolving_rl/evolution.py:189-198 | for a drawn non-loss target, every valid candidate for that position is drawn by some pick and is then written at the target position, the rest of the list unchanged, with the loss weight at its default |
| `Mutation.StructuralMutationDropsLossWeight` | evolving_rl/evolution.py:156-198 | every successful round whose drawn target is not the loss node leaves the loss weight at the class default, whether or not the drawn pair differs from the old entry |
| `Mutation.Round` | evolving_rl/evolution.py:99-123 | one loop round continues exactly when the mutation succeeds and its rebuild is invalid, raises exactly when the mutation raises, and otherwise returns an offspring bound to the parent's search space that rebuilds as valid, is a point mutation of the parent, and carries the tracker's fingerprint, duplicate flag and reward for its rebuilt program |
| `Mutation.Retry` | evolving_rl/evolution.py:98-123 | a returned genome satisfies the offspring guarantees of `Round`; the loop runs out of rounds exactly when every round's rebuild is invalid |
| `Mutation.RetryTakesFirstValidRound` | evolving_rl/evolution.py:98-123 | unless the rounds run out, the loop ends as the first round whose rebuild is not invalid ends, and every earlier round was invalid |
| `Mutation.Mutate` | evolving_rl/evolution.py:85-135 | a coin at or above the mutation probability returns the fresh sample bound to the parent's search space; below it, the call runs the retry loop on the decoded parent: any offspring satisfies the guarantees of `Round`, it runs out of rounds exactly when every rebuild is invalid, and otherwise it ends as the first round that is not invalid ends |
| `Evolution.NewIndividual` | evolving_rl/evolution.py:274-277 | an individual exists exactly when a reward is given, and it holds that genome and reward |
| `Evolution.Setup` | evolving_rl/evolution.py:219-228 | succeeds iff `2 <= tournament_size <= population_size`, producing a valid controller with an empty population; each violated bound is a failure |
| `Evolution.EvictOldest` | evolving_rl/evolution.py:262-264 | the result keeps the newest `min(len, population_size)` elements, in order |
| `Evolution.Feedback` | evolving_rl/evolution.py:257-264 | the tracker records the reward; the population is the newest `population_size` of the old population plus the new individual, which is last; nothing is evicted while under capacity; validity is preserved |
| `Evolution.ArrivalsKeepNewest` | evolving_rl/evolution.py:261-264 | appending one element at a time and evicting the oldest down to the capacity after each arrival leaves exactly the newest `capacity` elements, in arrival order |
| `Evolution.FeedAllKeepsNewest` | evolving_rl/evolution.py:261-264 | after any run of feedback calls the population is exactly the newest `population_size` individuals fed, in arrival order |
| `Evolution.FeedAllValid` | evolving_rl/evolution.py:257-264 | any run of feedback calls keeps the controller valid, so the population never exceeds `population_size` |
| `Evolution.EvictionScenario` | evolving_rl/evolution.py:261-264 | four individuals fill a population of four in order; a fifth evicts exactly the first |
| `Evolution.FeedbackMakesDuplicate` | evolving_rl/evolution.py:260 | after feedback, the fed genome's fingerprint is reported as a duplicate with the fed reward |
| `Evolution.Tournament` | evolving_rl/evolution.py:247-250 | the winner is a sampled individual whose reward is at least every sampled reward, and it is the first such one in sample order |
| `Evolution.Propose` | evolving_rl/evolution.py:230-255 | with the population below capacity, no selection happens and the result is the fresh sample bound to the search space; the tournament branch is taken only when the population size equals `population_size`; there, a sampled individual with maximal reward is rebound to the search space and mutated |

## Left out

- Fingerprint computation (`_compute_hash_output`): it runs the program on tensors and rounds floats. NaN and infinity are replaced and the result is clipped to float32. That is floating-point work on an opaque program, so `Env.hashOf` is an arbitrary function.
- Codec: pyglove encode, decode, `use_spec` and `clone` are transparent. A genome is its specification plus the search space it is bound to. Its stored fingerprint (the last value of its JSON form) is the specification's `hashOutput`.
- Collaborators: `build_program`, `sample_valid_program_spec`, `get_possible_input_idxs`, operator prechecks and output-type inference are arbitrary functions. Fresh samples are passed in as values.
- `get_possible_input_idxs`: the model assumes it only yields indices below the range it is given (`CombosWithin`). An out-of-range index would raise in the code.
- Randomness: every draw is an argument. The module-level and seeded random sources and the optional seed are not modelled.
- Programs.Choose: it states that every element is reachable by some draw, not that `random.choice` draws uniformly.
- Mutation coin: it is the value of `random.random()`, so it lies in [0, 1).
- Mutate: the `while True` retry loop has no bound. The model runs over a finite list of rounds and reports `RetriesExhausted` when they run out. The code would instead loop forever.
- Mutate: an exception inside a round ends the whole call, as in the code. Examples are an empty candidate list for `random.choice`, or a missing loss node.
- Feedback: the reward is a number, following the signature's `float` annotation. A `None` reward would first be stored in the tracker and then fail `_Individual`'s assertion; this is not modelled. The assertion itself is `NewIndividual`.
- Tournament: the check that every tournament member has a reward (evolving_rl/evolution.py:248-249) always passes, because rewards are numbers by type.
- Floats: rewards, weights and fingerprints are exact reals. Float keys never hold NaN, because the fingerprint replaces it.
- Logging and wall-clock timing.
- `rl_darts/algorithms/rainbow/agent.py`: it only wires together replay, network and checkpoint libraries. There is no search logic in it.

=== FILE: duplicates.dfy ===
/** The duplicate tracker of the point mutator: a map from a program's output
    fingerprint to the reward last reported for a genome carrying it
    (evolving_rl/evolution.py, `_check_duplicate` and `update_output_dict`). */
module Duplicates {

  type Tracker = map<real, real>

  /** The answer of a duplicate check: the fingerprint, whether it was seen,
      and the reward recorded for it (0 when unseen). */
  datatype DupCheck = DupCheck(fp: real, duplicate: bool, reward: real)

  function CheckDuplicate(t: Tracker, fp: real): (r: DupCheck)
    ensures r.fp == fp
    ensures r.duplicate <==> fp in t
    ensures fp in t ==> r.reward == t[fp]
    ensures fp !in t ==> r.reward == 0.0
  {
    if fp in t then DupCheck(fp, true, t[fp]) else DupCheck(fp, false, 0.0)
  }

  /** Last write wins: an existing entry is overwritten. */
  function Record(t: Tracker, fp: real, reward: real): (t': Tracker)
    ensures t'.Keys == t.Keys + {fp}
    ensures t'[fp] == reward
    ensures forall k :: k in t && k != fp ==> t'[k] == t[k]
  {
    t[fp := reward]
  }

  /** A fingerprint just recorded is reported as a duplicate with the reward
      recorded last, and every other fingerprint is answered as before. */
  lemma RecordThenCheck(t: Tracker, fp: real, reward: real, other: real)
    ensures CheckDuplicate(Record(t, fp, reward), fp) == DupCheck(fp, true, reward)
    ensures other != fp ==>
      CheckDuplicate(Record(t, fp, reward), other) == CheckDuplicate(t, other)
  {
  }
}

=== FILE: evolution.dfy ===
/** Regularized evolution over program genomes (evolving_rl/evolution.py,
    `CGSRegularizedEvolution` and `_Individual`): a bounded first-in-first-out
    population, tournament selection once it is full, and the feedback that
    appends an evaluated genome and evicts the oldest. */
module Evolution {
  import opened Wrappers
  import opened Programs
  import opened Duplicates
  import opened Mutation

  /** An evaluated genome. The reward is a number, never missing. */
  datatype Individual = Individual(dna: Dna, reward: real)

  /** The constructor of an individual, which refuses a missing reward. */
  function NewIndividual(dna: Dna, reward: Option<real>): (r: Option<Individual>)
    ensures r.Some? <==> reward.Some?
    ensures r.Some? ==> r.value.dna == dna && r.value.reward == reward.value
  {
    match reward
    case None => None
    case Some(x) => Some(Individual(dna, x))
  }

  /** The controller: its configuration, the search space proposals are bound
      to, the population (oldest first) and the mutator it owns. */
  datatype Evolution = Evolution(
    populationSize: nat,
    tournamentSize: nat,
    dnaSpec: SpecId,
    population: seq<Individual>,
    mutator: Mutator)
  {
    /** What setup establishes and feedback keeps. */
    predicate Valid() {
      2 <= tournamentSize <= populationSize && |population| <= populationSize
    }
  }

  datatype SetupError =
    | PopulationSizeBelowMinimum    // population_size is declared with minimum 2
    | TournamentSizeBelowMinimum    // tournament_size is declared with minimum 1
    | TournamentSizeBelowTwo        // setup asserts tournament_size >= 2
    | TournamentLargerThanPopulation // setup asserts population_size >= tournament_size

  /** Construction and `setup`: check the sizes, start with an empty population. */
  function Setup(populationSize: int, tournamentSize: int, dnaSpec: SpecId, mutator: Mutator)
    : (r: Result<Evolution, SetupError>)
    ensures r.Success? <==> 2 <= tournamentSize <= populationSize
    ensures r.Success? ==>
      && r.value.Valid()
      && r.value.population == []
      && r.value.populationSize == populationSize
      && r.value.tournamentSize == tournamentSize
      && r.value.dnaSpec == dnaSpec
      && r.value.mutator == mutator
    ensures populationSize < 2 ==> r == Failure(PopulationSizeBelowMinimum)
    ensures 2 <= populationSize && tournamentSize < 2 ==> r.Failure?
    ensures 2 <= tournamentSize && populationSize < tournamentSize ==> r.Failure?
  {
    if populationSize < 2 then Failure(PopulationSizeBelowMinimum)
    else if tournamentSize < 1 then Failure(TournamentSizeBelowMinimum)
    else if tournamentSize < 2 then Failure(TournamentSizeBelowTwo)
    else if populationSize < tournamentSize then Failure(TournamentLargerThanPopulation)
    else Success(Evolution(populationSize, tournamentSize, dnaSpec, [], mutator))
  }

  function Min(a: int, b: int): int {
    if a <= b then a else b
  }

  /** The newest `cap` elements of `s` (all of them if there are fewer). */
  function Window<T>(s: seq<T>, cap: nat): (r: seq<T>)
    ensures |r| == Min(|s|, cap)
  {
    s[|s| - Min(|s|, cap)..]
  }

  /** The eviction loop of `feedback`: drop the oldest while over capacity. */
  function EvictOldest<T>(pop: seq<T>, cap: nat): (r: seq<T>)
    ensures |r| == Min(|pop|, cap)
    ensures r == pop[|pop| - |r|..]
    decreases |pop|
  {
    if |pop| > cap then EvictOldest(pop[1..], cap) else pop
  }

  /** `feedback`: record the reward in the tracker, append the individual,
      evict the oldest while the population is over capacity. */
  function Feedback(e: Evolution, dna: Dna, reward: real): (e': Evolution)
    ensures e'.populationSize == e.populationSize && e'.tournamentSize == e.tournamentSize
    ensures e'.dnaSpec == e.dnaSpec
    ensures e'.mutator == UpdateOutputDict(e.mutator, dna, reward)
    ensures |e'.population| == Min(|e.population| + 1, e.populationSize)
    ensures e'.population == (e.population + [Individual(dna, reward)])[|e.population| + 1 - |e'.population|..]
    ensures 0 < e.populationSize ==> e'.population[|e'.population| - 1] == Individual(dna, reward)
    ensures |e.population| < e.populationSize ==> e'.population == e.population + [Individual(dna, reward)]
    ensures e.Valid() ==> e'.Valid()
  {
    var mutator := UpdateOutputDict(e.mutator, dna, reward);
    var x := NewIndividual(dna, Some(reward)).value;
    var population := EvictOldest(e.population + [x], e.populationSize);
    e.(population := population, mutator := mutator)
  }

  /** The population after each element of `fed` arrives in turn and the
      oldest are evicted down to `cap` after every arrival. */
  function Arrivals<T>(pop: seq<T>, fed: seq<T>, cap: nat): seq<T>
    decreases |fed|
  {
    if fed == [] then pop else Arrivals(EvictOldest(pop + [fed[0]], cap), fed[1..], cap)
  }

  /** A run of feedback calls, in order. */
  function FeedAll(e: Evolution, fed: seq<Individual>): (e': Evolution)
    ensures e'.population == Arrivals(e.population, fed, e.populationSize)
    ensures e'.populationSize == e.populationSize && e'.tournamentSize == e.tournamentSize
    decreases |fed|
  {
    if fed == [] then e
    else
      assert fed[0] == Individual(fed[0].dna, fed[0].reward);
      FeedAll(Feedback(e, fed[0].dna, fed[0].reward), fed[1..])
  }

  lemma WindowOfWindow<T>(s: seq<T>, t: seq<T>, cap: nat)
    ensures Window(Window(s, cap) + t, cap) == Window(s + t, cap)
  {
    var w := Window(s, cap);
    var k := Min(|w| + |t|, cap);
    assert k == Min(|s| + |t|, cap);
    var a := (w + t)[|w| + |t| - k..];
    var b := (s + t)[|s| + |t| - k..];
    assert |a| == |b|;
    forall i | 0 <= i < |a|
      ensures a[i] == b[i]
    {
      var j := |w| + |t| - k + i;
      if j < |w| {
        assert a[i] == w[j] == s[|s| - |w| + j];
        assert b[i] == (s + t)[|s| - |w| + j];
      } else {
        assert a[i] == t[j - |w|];
        assert b[i] == (s + t)[|s| + j - |w|];
      }
    }
  }

  lemma AppendHead<T>(p: seq<T>, f: seq<T>)
    requires f != []
    ensures p + [f[0]] + f[1..] == p + f
  {
    assert f == [f[0]] + f[1..];
  }

  lemma {:induction false} ArrivalsKeepNewest<T>(pop: seq<T>, fed: seq<T>, cap: nat)
    requires |pop| <= cap
    ensures Arrivals(pop, fed, cap) == Window(pop + fed, cap)
    decreases |fed|
  {
    if fed == [] {
      assert pop + fed == pop;
    } else {
      var next := EvictOldest(pop + [fed[0]], cap);
      assert next == Window(pop + [fed[0]], cap);
      ArrivalsKeepNewest(next, fed[1..], cap);
      WindowOfWindow(pop + [fed[0]], fed[1..], cap);
      AppendHead(pop, fed);
    }
  }

  /** First in, first out: after any run of feedback calls the population holds
      exactly the newest `populationSize` individuals, in arrival order. */
  lemma FeedAllKeepsNewest(e: Evolution, fed: seq<Individual>)
    requires |e.population| <= e.populationSize
    ensures FeedAll(e, fed).population == Window(e.population + fed, e.populationSize)
  {
    ArrivalsKeepNewest(e.population, fed, e.populationSize);
  }

  /** Feedback keeps the controller valid over any run of calls. */
  lemma FeedAllValid(e: Evolution, fed: seq<Individual>)
    requires e.Valid()
    ensures FeedAll(e, fed).Valid()
  {
    FeedAllKeepsNewest(e, fed);
  }

  /** Four individuals fill a population of four; a fifth evicts the first,
      whatever the rewards. */
  lemma EvictionScenario(e: Evolution, x1: Individual, x2: Individual, x3: Individual,
                         x4: Individual, x5: Individual)
    requires e.populationSize == 4 && e.population == []
    ensures FeedAll(e, [x1, x2, x3, x4]).population == [x1, x2, x3, x4]
    ensures FeedAll(e, [x1, x2, x3, x4, x5]).population == [x2, x3, x4, x5]
  {
    var four := [x1, x2, x3, x4];
    var five := [x1, x2, x3, x4, x5];
    FeedAllKeepsNewest(e, four);
    FeedAllKeepsNewest(e, five);
    assert e.population + four == four;
    assert e.population + five == five;
    assert Window(five, 4) == five[1..];
  }

  /** After a genome is fed back, a program with the same fingerprint is
      reported as a duplicate carrying that reward. */
  lemma FeedbackMakesDuplicate(e: Evolution, dna: Dna, reward: real)
    ensures CheckDuplicate(Feedback(e, dna, reward).mutator.outputDict, Fingerprint(dna))
            == DupCheck(Fingerprint(dna), true, reward)
  {
  }

  // ---------------------------------------------------------------------------
  // Proposals
  // ---------------------------------------------------------------------------

  /** `picks` are `k` distinct population positions: a sample without
      replacement. */
  predicate IsSample(picks: seq<nat>, k: nat, n: nat) {
    && |picks| == k
    && (forall i :: 0 <= i < |picks| ==> picks[i] < n)
    && (forall i, j :: 0 <= i < j < |picks| ==> picks[i] != picks[j])
  }

  /** `max(tournament, key=reward)`: the position in `picks` of the first
      sampled individual with the highest reward. */
  method Tournament(pop: seq<Individual>, picks: seq<nat>) returns (w: nat)
    requires |picks| > 0
    requires forall i :: 0 <= i < |picks| ==> picks[i] < |pop|
    ensures w < |picks|
    ensures forall i :: 0 <= i < |picks| ==> pop[picks[i]].reward <= pop[picks[w]].reward
    ensures forall i :: 0 <= i < w ==> pop[picks[i]].reward < pop[picks[w]].reward
  {
    w := 0;
    var i := 1;
    while i < |picks|
      invariant 1 <= i <= |picks|
      invariant w < i
      invariant forall j :: 0 <= j < i ==> pop[picks[j]].reward <= pop[picks[w]].reward
      invariant forall j :: 0 <= j < w ==> pop[picks[j]].reward < pop[picks[w]].reward
    {
      if pop[picks[i]].reward > pop[picks[w]].reward {
        w := i;
      }
      i := i + 1;
    }
  }

  /** The random draws of one `propose` call. */
  datatype ProposeDraws = ProposeDraws(sample: ProgramSpec, picks: seq<nat>, mutation: MutateDraws)

  /** `propose`: while the population is not full, a fresh sample bound to the
      search space; once full, the tournament winner, rebound to the search
      space and mutated. The population is not changed. `parent` is the
      population position of the tournament winner. */
  method Propose(e: Evolution, env: Env, draws: ProposeDraws)
    returns (r: Result<Dna, MutateError>, parent: Option<nat>)
    requires e.Valid()
    requires CombosWithin(env.cat)
    requires 0.0 <= draws.mutation.coin < 1.0
    requires |e.population| == e.populationSize ==>
      IsSample(draws.picks, e.tournamentSize, |e.population|)
    ensures parent.None? <==> |e.population| < e.populationSize
    ensures parent.Some? ==> |e.population| == e.populationSize
    ensures parent.None? ==> r == Success(Dna(draws.sample, e.dnaSpec))
    ensures parent.Some? ==>
      && parent.value in draws.picks
      && (forall i :: 0 <= i < |draws.picks| ==>
            e.population[draws.picks[i]].reward <= e.population[parent.value].reward)
      && r == Mutate(e.mutator, env, Dna(e.population[parent.value].dna.program, e.dnaSpec),
                     draws.mutation)
  {
    if |e.population| < e.populationSize {
      r := Success(Dna(draws.sample, e.dnaSpec));
      parent := None;
    } else {
      var w := Tournament(e.population, draws.picks);
      var winner := e.population[draws.picks[w]];
      r := Mutate(e.mutator, env, Dna(winner.dna.program, e.dnaSpec), draws.mutation);
      parent := Some(draws.picks[w]);
    }
  }
}

=== FILE: mutation.dfy ===
/** The point mutator over the program search space (evolving_rl/evolution.py,
    `DAGPointMutator`). Every random draw of the source is a `pick` argument;
    the unbounded retry loop of `mutate` runs over a finite list of attempts. */
module Mutation {
  import opened Wrappers
  import opened Programs
  import opened Duplicates

  datatype MutatorConfig = MutatorConfig(
    mutationProbability: real,
    numInputs: nat,          // len(input_nodes)
    numFreezeOps: nat,
    adjustLossWeight: bool)

  /** The mutator's configuration and its duplicate tracker (`output_dict`),
      which starts empty when the mutator is bound. */
  datatype Mutator = Mutator(cfg: MutatorConfig, outputDict: Tracker)

  /** `_on_bound`: a freshly bound mutator has seen no fingerprint yet. */
  function NewMutator(cfg: MutatorConfig): (m: Mutator)
    ensures m.cfg == cfg
    ensures forall fp :: CheckDuplicate(m.outputDict, fp) == DupCheck(fp, false, 0.0)
  {
    Mutator(cfg, map[])
  }

  /** Exceptions a mutation can raise, plus running out of retries. */
  datatype MutateError =
    | EmptyIndexList        // no mutable node index to delete from or choose
    | EmptyCandidateList    // no (operator, inputs) pair passed the filters
    | NoLossNode            // there is no last compiled node, or it is not a loss node
    | EmptyLossWeights      // the loss node allows no weight
    | RetriesExhausted      // every attempt built an invalid program

  /** The chosen node: its index in the compiled node list and in `program_lst`. */
  datatype Target = Target(nodeIdx: nat, nIdx: nat)

  /** The random draws of one round of the retry loop. */
  datatype Attempt = Attempt(nodePick: nat, pairPick: nat, weightPick: nat)

  /** The random draws of one `mutate` call: the coin against
      `mutation_probability`, the fresh sample used when it is not met, and
      the rounds of the retry loop. */
  datatype MutateDraws = MutateDraws(coin: real, sample: ProgramSpec, attempts: seq<Attempt>)

  /** The specification `_alter_node_idx` returns: a program list and, for the
      loss-weight branch only, a loss weight. */
  datatype Altered = Altered(programLst: seq<ProgramEntry>, lossWeight: Option<real>)

  /** `update_output_dict`: record the reward under the genome's fingerprint. */
  function UpdateOutputDict(m: Mutator, dna: Dna, reward: real): (m': Mutator)
    ensures m'.cfg == m.cfg
    ensures CheckDuplicate(m'.outputDict, Fingerprint(dna)) == DupCheck(Fingerprint(dna), true, reward)
    ensures forall fp :: fp != Fingerprint(dna) ==>
      CheckDuplicate(m'.outputDict, fp) == CheckDuplicate(m.outputDict, fp)
  {
    m.(outputDict := Record(m.outputDict, Fingerprint(dna), reward))
  }

  /** The first compiled node index that may be mutated. */
  function LowestMutable(cfg: MutatorConfig): nat {
    cfg.numInputs + cfg.numFreezeOps
  }

  /** `_sample_node_idx_to_mutate`: a node index past the inputs and the frozen
      operators, never the last node unless the loss weight may be adjusted. */
  function SampleNodeIdx(cfg: MutatorConfig, numOps: nat, pick: nat): (r: Result<Target, MutateError>)
    ensures r.Success? <==>
      LowestMutable(cfg) + (if cfg.adjustLossWeight then 1 else 2) <= numOps
    ensures r.Success? ==> LowestMutable(cfg) <= r.value.nodeIdx < numOps
    ensures r.Success? && !cfg.adjustLossWeight ==> r.value.nodeIdx < numOps - 1
    ensures r.Success? ==>
      r.value.nIdx + cfg.numInputs == r.value.nodeIdx && cfg.numFreezeOps <= r.value.nIdx
  {
    var idxs := Range(LowestMutable(cfg), numOps);
    if !cfg.adjustLossWeight && |idxs| == 0 then
      Failure(EmptyIndexList)
    else
      var candidates := if cfg.adjustLossWeight then idxs else idxs[..|idxs| - 1];
      match Choose(candidates, pick)
      case None => Failure(EmptyIndexList)
      case Some(k) =>
        assert LowestMutable(cfg) <= k by {
          var i :| 0 <= i < |candidates| && candidates[i] == k;
          assert candidates[i] == idxs[i];
        }
        Success(Target(k, k - cfg.numInputs))
  }

  /** Every mutable node index is the outcome of some draw. */
  lemma SampleNodeIdxReachesEvery(cfg: MutatorConfig, numOps: nat, nodeIdx: nat)
    requires LowestMutable(cfg) <= nodeIdx < numOps
    requires !cfg.adjustLossWeight ==> nodeIdx < numOps - 1
    ensures SampleNodeIdx(cfg, numOps, nodeIdx - LowestMutable(cfg))
            == Success(Target(nodeIdx, nodeIdx - cfg.numInputs))
  {
    var idxs := Range(LowestMutable(cfg), numOps);
    assert idxs[nodeIdx - LowestMutable(cfg)] == nodeIdx;
  }

  /** The rebuilt program list: position `n` holds `p`, every other position
      keeps its entry. */
  function Splice(lst: seq<ProgramEntry>, n: int, p: ProgramEntry): (r: seq<ProgramEntry>)
    ensures |r| == |lst|
    ensures forall i :: 0 <= i < |lst| && i != n ==> r[i] == lst[i]
    ensures 0 <= n < |lst| ==> r[n] == p
  {
    if lst == [] then []
    else [if n == 0 then p else lst[0]] + Splice(lst[1..], n - 1, p)
  }

  // ---------------------------------------------------------------------------
  // Candidate (operator, inputs) pairs for a structural mutation
  // ---------------------------------------------------------------------------

  /** Operator index `i` is tried: it is the first occurrence of a class other
      than the loss operator (the source iterates over the set of classes and
      uses the class's first index in the catalogue). */
  predicate Eligible(cat: Catalogue, i: nat) {
    i < |cat.operators|
    && cat.operators[i] != cat.lossOp
    && cat.operators[i] !in cat.operators[..i]
  }

  /** The nodes an input-index combination selects. */
  function InputOps(allInputs: seq<CompiledNode>, combo: seq<nat>): (r: seq<CompiledNode>)
    requires InputsIn(combo, |allInputs|)
    ensures |r| == |combo|
    ensures forall j :: 0 <= j < |combo| ==> r[j] == allInputs[combo[j]]
  {
    seq(|combo|, j requires 0 <= j < |combo| => allInputs[combo[j]])
  }

  function Dtypes(ops: seq<CompiledNode>): (r: seq<DType>)
    ensures |r| == |ops|
  {
    seq(|ops|, j requires 0 <= j < |ops| => ops[j].odtype)
  }

  /** The per-candidate filter: the precheck passes, and a non-leaf target
      keeps the output type of the node it replaces. */
  predicate Accepted(cat: Catalogue, cls: OpClass, allInputs: seq<CompiledNode>,
                     combo: seq<nat>, isLeaf: bool, target: DType)
    requires InputsIn(combo, |allInputs|)
  {
    var ops := InputOps(allInputs, combo);
    cat.precheck(cls, ops) && (isLeaf || cat.outDtype(cls, combo, Dtypes(ops)) == target)
  }

  /** A pair the source appends to `valid_lst`. */
  predicate IsValidPair(cat: Catalogue, allInputs: seq<CompiledNode>, isLeaf: bool,
                        target: DType, p: ProgramEntry)
  {
    && Eligible(cat, p.opIdx)
    && p.inputIdxs in cat.inputCombos(cat.operators[p.opIdx], |allInputs|)
    && InputsIn(p.inputIdxs, |allInputs|)
    && Accepted(cat, cat.operators[p.opIdx], allInputs, p.inputIdxs, isLeaf, target)
  }

  /** The inner loop over the input combinations of operator index `i`. */
  function PairsFor(cat: Catalogue, i: nat, allInputs: seq<CompiledNode>, isLeaf: bool,
                    target: DType, combos: seq<seq<nat>>): (r: seq<ProgramEntry>)
    requires i < |cat.operators|
    requires forall k :: 0 <= k < |combos| ==> InputsIn(combos[k], |allInputs|)
    ensures forall p :: p in r ==>
      && p.opIdx == i && p.inputIdxs in combos
      && InputsIn(p.inputIdxs, |allInputs|)
      && Accepted(cat, cat.operators[i], allInputs, p.inputIdxs, isLeaf, target)
  {
    if combos == [] then []
    else
      var here := if Accepted(cat, cat.operators[i], allInputs, combos[0], isLeaf, target)
                  then [ProgramEntry(i, combos[0])] else [];
      here + PairsFor(cat, i, allInputs, isLeaf, target, combos[1..])
  }

  /** The outer loop over operator indices `i` and onwards. */
  function PairsFrom(cat: Catalogue, allInputs: seq<CompiledNode>, isLeaf: bool,
                     target: DType, i: nat): (r: seq<ProgramEntry>)
    requires CombosWithin(cat)
    ensures forall p :: p in r ==> i <= p.opIdx && IsValidPair(cat, allInputs, isLeaf, target, p)
    decreases |cat.operators| - i
  {
    if |cat.operators| <= i then []
    else
      var here := if Eligible(cat, i)
                  then PairsFor(cat, i, allInputs, isLeaf, target,
                                cat.inputCombos(cat.operators[i], |allInputs|))
                  else [];
      here + PairsFrom(cat, allInputs, isLeaf, target, i + 1)
  }

  /** `valid_lst`: every pair of an eligible operator and an enumerated input
      combination that passes the filter. */
  function ValidPairs(cat: Catalogue, allInputs: seq<CompiledNode>, isLeaf: bool,
                      target: DType): (r: seq<ProgramEntry>)
    requires CombosWithin(cat)
    ensures forall p :: p in r ==> IsValidPair(cat, allInputs, isLeaf, target, p)
  {
    PairsFrom(cat, allInputs, isLeaf, target, 0)
  }

  lemma {:induction false} PairsForComplete(cat: Catalogue, i: nat, allInputs: seq<CompiledNode>,
                                            isLeaf: bool, target: DType,
                                            combos: seq<seq<nat>>, combo: seq<nat>)
    requires i < |cat.operators|
    requires forall k :: 0 <= k < |combos| ==> InputsIn(combos[k], |allInputs|)
    requires combo in combos
    requires InputsIn(combo, |allInputs|)
    requires Accepted(cat, cat.operators[i], allInputs, combo, isLeaf, target)
    ensures ProgramEntry(i, combo) in PairsFor(cat, i, allInputs, isLeaf, target, combos)
  {
    if combos[0] != combo {
      PairsForComplete(cat, i, allInputs, isLeaf, target, combos[1..], combo);
    }
  }

  lemma {:induction false} PairsFromComplete(cat: Catalogue, allInputs: seq<CompiledNode>,
                                             isLeaf: bool, target: DType, i: nat, p: ProgramEntry)
    requires CombosWithin(cat)
    requires i <= p.opIdx
    requires IsValidPair(cat, allInputs, isLeaf, target, p)
    ensures p in PairsFrom(cat, allInputs, isLeaf, target, i)
    decreases |cat.operators| - i
  {
    if i == p.opIdx {
      PairsForComplete(cat, i, allInputs, isLeaf, target,
                       cat.inputCombos(cat.operators[i], |allInputs|), p.inputIdxs);
    } else {
      PairsFromComplete(cat, allInputs, isLeaf, target, i + 1, p);
    }
  }

  /** `valid_lst` holds exactly the pairs that pass the filters. */
  lemma ValidPairsExact(cat: Catalogue, allInputs: seq<CompiledNode>, isLeaf: bool,
                        target: DType, p: ProgramEntry)
    requires CombosWithin(cat)
    ensures p in ValidPairs(cat, allInputs, isLeaf, target)
        <==> IsValidPair(cat, allInputs, isLeaf, target, p)
  {
    if IsValidPair(cat, allInputs, isLeaf, target, p) {
      PairsFromComplete(cat, allInputs, isLeaf, target, 0, p);
    }
  }

  /** Candidate inputs come from `ops_lst[:node_idx - 1]`, so for a target past
      the first node every input index lies strictly below `node_idx - 1`: the
      node immediately before the target is never offered as an input. */
  lemma CandidateInputsPrecedeTarget(cat: Catalogue, compiled: Compiled, nodeIdx: nat,
                                     isLeaf: bool, target: DType, p: ProgramEntry)
    requires 1 <= nodeIdx <= |compiled.opsLst|
    requires IsValidPair(cat, PyPrefix(compiled.opsLst, nodeIdx - 1), isLeaf, target, p)
    ensures forall j :: 0 <= j < |p.inputIdxs| ==> p.inputIdxs[j] < nodeIdx - 1
  {
  }

  // ---------------------------------------------------------------------------
  // One mutation round
  // ---------------------------------------------------------------------------

  /** `w` is one of the weights the last compiled node (the loss node) allows. */
  predicate LossWeightAllowed(compiled: Compiled, w: real) {
    && |compiled.opsLst| > 0
    && compiled.opsLst[|compiled.opsLst| - 1].kind.LossNode?
    && w in compiled.opsLst[|compiled.opsLst| - 1].kind.lossWeights
  }

  /** `_alter_continuous`: keep the program list, draw a new loss weight from the
      last node's allowed weights. */
  function AlterContinuous(programLst: seq<ProgramEntry>, compiled: Compiled, pick: nat): (r: Result<Altered, MutateError>)
    ensures r.Success? <==>
      && |compiled.opsLst| > 0
      && compiled.opsLst[|compiled.opsLst| - 1].kind.LossNode?
      && |compiled.opsLst[|compiled.opsLst| - 1].kind.lossWeights| > 0
    ensures r.Failure? ==> r.error == NoLossNode || r.error == EmptyLossWeights
    ensures r.Success? ==>
      && r.value.programLst == programLst
      && r.value.lossWeight.Some?
      && LossWeightAllowed(compiled, r.value.lossWeight.value)
  {
    if |compiled.opsLst| == 0 then Failure(NoLossNode)
    else
      match compiled.opsLst[|compiled.opsLst| - 1].kind
      case LossNode(weights) =>
        (match Choose(weights, pick)
         case None => Failure(EmptyLossWeights)
         case Some(w) => Success(Altered(programLst, Some(w))))
      case _ => Failure(NoLossNode)
  }

  /** `n` (a `program_lst` position) is a legitimate target for the pair `p`:
      a mutable, non-loss node, and `p` is in the candidate list computed for it. */
  predicate ValidReplacementAt(cfg: MutatorConfig, cat: Catalogue, compiled: Compiled, n: nat, p: ProgramEntry) {
    var nodeIdx := n + cfg.numInputs;
    && LowestMutable(cfg) <= nodeIdx < |compiled.opsLst|
    && (!cfg.adjustLossWeight ==> nodeIdx < |compiled.opsLst| - 1)
    && !compiled.opsLst[nodeIdx].kind.LossNode?
    && IsValidPair(cat, PyPrefix(compiled.opsLst, nodeIdx - 1), nodeIdx in compiled.leaves,
                   compiled.opsLst[nodeIdx].odtype, p)
  }

  /** `after` is a point mutation of `before`: same length, the frozen prefix
      kept, at most one position changed, and that position holds a candidate
      pair valid for it. */
  predicate PointMutation(cfg: MutatorConfig, cat: Catalogue, compiled: Compiled,
                          before: seq<ProgramEntry>, after: seq<ProgramEntry>)
  {
    && |after| == |before|
    && (forall i :: 0 <= i < |before| && i < cfg.numFreezeOps ==> after[i] == before[i])
    && (forall i, j ::
          (0 <= i < |before| && 0 <= j < |before| && after[i] != before[i] && after[j] != before[j])
          ==> i == j)
    && (forall i :: 0 <= i < |before| && after[i] != before[i] ==>
          ValidReplacementAt(cfg, cat, compiled, i, after[i]))
  }

  /** `after` is `before` with a candidate pair valid for position `n` written
      at `n`: what a structural round returns, even when the drawn pair equals
      the entry it replaces. */
  ghost predicate SplicedCandidate(cfg: MutatorConfig, cat: Catalogue, compiled: Compiled,
                                   before: seq<ProgramEntry>, after: seq<ProgramEntry>)
  {
    exists n: nat, p: ProgramEntry ::
      ValidReplacementAt(cfg, cat, compiled, n, p) && after == Splice(before, n, p)
  }

  lemma SplicePointMutation(cfg: MutatorConfig, cat: Catalogue, compiled: Compiled,
                            before: seq<ProgramEntry>, n: nat, p: ProgramEntry)
    requires cfg.numFreezeOps <= n
    requires ValidReplacementAt(cfg, cat, compiled, n, p)
    ensures PointMutation(cfg, cat, compiled, before, Splice(before, n, p))
  {
  }

  /** The round of `_alter_node_idx` with draws `a` raises nothing: a target
      is drawn, and then either the target is the loss node and the last node
      allows some loss weight, or the candidate list for the target is not
      empty. */
  predicate RoundOk(cfg: MutatorConfig, cat: Catalogue, compiled: Compiled, a: Attempt)
    requires CombosWithin(cat)
  {
    var s := SampleNodeIdx(cfg, |compiled.opsLst|, a.nodePick);
    && s.Success?
    && var nodeIdx := s.value.nodeIdx;
    if compiled.opsLst[nodeIdx].kind.LossNode? then
      && compiled.opsLst[|compiled.opsLst| - 1].kind.LossNode?
      && |compiled.opsLst[|compiled.opsLst| - 1].kind.lossWeights| > 0
    else
      ValidPairs(cat, PyPrefix(compiled.opsLst, nodeIdx - 1), nodeIdx in compiled.leaves,
                 compiled.opsLst[nodeIdx].odtype) != []
  }

  /** The structural branch of `_alter_node_idx` for a drawn non-loss target
      `t`: draw a pair from the candidate list and write it at `t.nIdx`. */
  function AlterStructural(cfg: MutatorConfig, cat: Catalogue, programLst: seq<ProgramEntry>,
                           compiled: Compiled, t: Target, pairPick: nat): (r: Result<Altered, MutateError>)
    requires CombosWithin(cat)
    requires LowestMutable(cfg) <= t.nodeIdx < |compiled.opsLst|
    requires !cfg.adjustLossWeight ==> t.nodeIdx < |compiled.opsLst| - 1
    requires t.nIdx + cfg.numInputs == t.nodeIdx
    requires !compiled.opsLst[t.nodeIdx].kind.LossNode?
    ensures r.Success? <==>
      ValidPairs(cat, PyPrefix(compiled.opsLst, t.nodeIdx - 1), t.nodeIdx in compiled.leaves,
                 compiled.opsLst[t.nodeIdx].odtype) != []
    ensures r.Failure? ==> r == Failure(EmptyCandidateList)
    ensures r.Success? ==>
      && r.value.lossWeight.None?
      && PointMutation(cfg, cat, compiled, programLst, r.value.programLst)
      && (exists p :: ValidReplacementAt(cfg, cat, compiled, t.nIdx, p)
                      && r.value.programLst == Splice(programLst, t.nIdx, p))
      && (t.nIdx < |programLst| ==>
            ValidReplacementAt(cfg, cat, compiled, t.nIdx, r.value.programLst[t.nIdx]))
  {
    var op := compiled.opsLst[t.nodeIdx];
    var isLeaf := t.nodeIdx in compiled.leaves;
    var allInputs := PyPrefix(compiled.opsLst, t.nodeIdx - 1);
    match Choose(ValidPairs(cat, allInputs, isLeaf, op.odtype), pairPick)
    case None => Failure(EmptyCandidateList)
    case Some(p) =>
      SplicePointMutation(cfg, cat, compiled, programLst, t.nIdx, p);
      Success(Altered(Splice(programLst, t.nIdx, p), None))
  }

  /** `_alter_node_idx`: pick a target; a loss node changes only the loss weight,
      any other node is replaced by a drawn candidate pair. */
  function AlterNodeIdx(cfg: MutatorConfig, cat: Catalogue, programLst: seq<ProgramEntry>,
                        compiled: Compiled, a: Attempt): (r: Result<Altered, MutateError>)
    requires CombosWithin(cat)
    ensures r.Success? ==> PointMutation(cfg, cat, compiled, programLst, r.value.programLst)
    ensures r.Success? && r.value.lossWeight.Some? ==>
      r.value.programLst == programLst && LossWeightAllowed(compiled, r.value.lossWeight.value)
    ensures r.Success? <==> RoundOk(cfg, cat, compiled, a)
    ensures SampleNodeIdx(cfg, |compiled.opsLst|, a.nodePick).Failure? ==> r == Failure(EmptyIndexList)
    ensures SampleNodeIdx(cfg, |compiled.opsLst|, a.nodePick).Success? ==>
      var nodeIdx := SampleNodeIdx(cfg, |compiled.opsLst|, a.nodePick).value.nodeIdx;
      !compiled.opsLst[nodeIdx].kind.LossNode? &&
      ValidPairs(cat, PyPrefix(compiled.opsLst, nodeIdx - 1), nodeIdx in compiled.leaves,
                 compiled.opsLst[nodeIdx].odtype) == []
      ==> r == Failure(EmptyCandidateList)
    ensures r.Failure? ==> !r.error.RetriesExhausted?
    ensures r.Success? && r.value.lossWeight.None? ==>
      && SampleNodeIdx(cfg, |compiled.opsLst|, a.nodePick).Success?
      && var t := SampleNodeIdx(cfg, |compiled.opsLst|, a.nodePick).value;
      && (exists p :: ValidReplacementAt(cfg, cat, compiled, t.nIdx, p)
                      && r.value.programLst == Splice(programLst, t.nIdx, p))
      && (t.nIdx < |programLst| ==>
            ValidReplacementAt(cfg, cat, compiled, t.nIdx, r.value.programLst[t.nIdx]))
  {
    match SampleNodeIdx(cfg, |compiled.opsLst|, a.nodePick)
    case Failure(e) => Failure(e)
    case Success(t) =>
      var op := compiled.opsLst[t.nodeIdx];
      if op.kind.LossNode? then
        AlterContinuous(programLst, compiled, a.weightPick)
      else
        AlterStructural(cfg, cat, programLst, compiled, t, a.pairPick)
  }

  // ---------------------------------------------------------------------------
  // The whole mutation
  // ---------------------------------------------------------------------------

  /** What a point-mutation offspring of `programLst` satisfies: bound to the
      parent's search space, structurally valid when rebuilt, a point mutation
      of the parent (a drawn candidate written at the target position, or
      only a new loss weight), and carrying the duplicate verdict of its fingerprint. */
  ghost predicate Offspring(cfg: MutatorConfig, env: Env, tracker: Tracker, programLst: seq<ProgramEntry>,
                            compiled: Compiled, spec: SpecId, d: Dna)
  {
    var built := env.build(d.program.programLst, d.program.lossWeight);
    var check := CheckDuplicate(tracker, env.hashOf(built.program));
    && d.spec == spec
    && built.valid
    && PointMutation(cfg, env.cat, compiled, programLst, d.program.programLst)
    && (d.program.lossWeight.None? ==>
          SplicedCandidate(cfg, env.cat, compiled, programLst, d.program.programLst))
    && (d.program.lossWeight.Some? ==>
          d.program.programLst == programLst
          && LossWeightAllowed(compiled, d.program.lossWeight.value))
    && d.program.hashOutput == check.fp
    && d.program.duplicate == check.duplicate
    && d.program.reward == check.reward
  }

  /** The rebuild of round `a` is structurally invalid, so the loop goes on. */
  predicate RoundInvalid(cfg: MutatorConfig, env: Env, programLst: seq<ProgramEntry>,
                         compiled: Compiled, a: Attempt)
    requires CombosWithin(env.cat)
  {
    var alt := AlterNodeIdx(cfg, env.cat, programLst, compiled, a);
    alt.Success? && !env.build(alt.value.programLst, alt.value.lossWeight).valid
  }

  /** One round of the `while True` loop of `mutate`: `None` when the rebuilt
      program is invalid and the loop continues, otherwise how the call ends. */
  function Round(cfg: MutatorConfig, env: Env, tracker: Tracker, programLst: seq<ProgramEntry>,
                 compiled: Compiled, spec: SpecId, a: Attempt): (r: Option<Result<Dna, MutateError>>)
    requires CombosWithin(env.cat)
    ensures r.None? <==> RoundInvalid(cfg, env, programLst, compiled, a)
    ensures r.Some? && r.value.Failure? <==> !RoundOk(cfg, env.cat, compiled, a)
    ensures r.Some? && r.value.Failure? ==> !r.value.error.RetriesExhausted?
    ensures r.Some? && r.value.Success? ==>
      Offspring(cfg, env, tracker, programLst, compiled, spec, r.value.value)
  {
    match AlterNodeIdx(cfg, env.cat, programLst, compiled, a)
    case Failure(e) => Some(Failure(e))
    case Success(alt) =>
      var built := env.build(alt.programLst, alt.lossWeight);
      if !built.valid then None
      else
        var check := CheckDuplicate(tracker, env.hashOf(built.program));
        Some(Success(Dna(ProgramSpec(alt.programLst, alt.lossWeight, check.duplicate,
                                     check.reward, check.fp), spec)))
  }

  /** The `while True` loop of `mutate`, one attempt per round: an invalid
      rebuild goes on to the next round, a valid one or an exception ends the
      loop. Running out of rounds, which the source cannot do, is
      `RetriesExhausted`. */
  function Retry(cfg: MutatorConfig, env: Env, tracker: Tracker, programLst: seq<ProgramEntry>,
                 compiled: Compiled, spec: SpecId, attempts: seq<Attempt>): (r: Result<Dna, MutateError>)
    requires CombosWithin(env.cat)
    ensures r.Success? ==> Offspring(cfg, env, tracker, programLst, compiled, spec, r.value)
    ensures r == Failure(RetriesExhausted) <==>
      forall j :: 0 <= j < |attempts| ==> RoundInvalid(cfg, env, programLst, compiled, attempts[j])
    decreases |attempts|
  {
    if attempts == [] then Failure(RetriesExhausted)
    else
      assert forall j :: 0 < j < |attempts| ==> attempts[j] == attempts[1..][j - 1];
      match Round(cfg, env, tracker, programLst, compiled, spec, attempts[0])
      case None => Retry(cfg, env, tracker, programLst, compiled, spec, attempts[1..])
      case Some(r) => r
  }

  /** An invalid first round followed by `k` invalid rounds is `k + 1` invalid
      rounds. */
  lemma InvalidPrefixExtends(cfg: MutatorConfig, env: Env, programLst: seq<ProgramEntry>,
                             compiled: Compiled, attempts: seq<Attempt>, k: nat)
    requires CombosWithin(env.cat)
    requires k < |attempts|
    requires RoundInvalid(cfg, env, programLst, compiled, attempts[0])
    requires forall j :: 0 <= j < k ==> RoundInvalid(cfg, env, programLst, compiled, attempts[1..][j])
    ensures forall j :: 0 <= j < k + 1 ==> RoundInvalid(cfg, env, programLst, compiled, attempts[j])
  {
    forall j | 0 < j < k + 1
      ensures RoundInvalid(cfg, env, programLst, compiled, attempts[j])
    {
      assert attempts[j] == attempts[1..][j - 1];
    }
  }

  /** The loop ends in the first round whose rebuild is not invalid: every
      earlier round was invalid, and the call ends as that round does. */
  lemma {:induction false} RetryTakesFirstValidRound(cfg: MutatorConfig, env: Env, tracker: Tracker,
                                                     programLst: seq<ProgramEntry>, compiled: Compiled,
                                                     spec: SpecId, attempts: seq<Attempt>)
    requires CombosWithin(env.cat)
    ensures var r := Retry(cfg, env, tracker, programLst, compiled, spec, attempts);
      r != Failure(RetriesExhausted) ==>
        exists k :: 0 <= k < |attempts|
          && (forall j :: 0 <= j < k ==> RoundInvalid(cfg, env, programLst, compiled, attempts[j]))
          && Round(cfg, env, tracker, programLst, compiled, spec, attempts[k]) == Some(r)
    decreases |attempts|
  {
    if attempts != [] {
      var r := Retry(cfg, env, tracker, programLst, compiled, spec, attempts);
      if Round(cfg, env, tracker, programLst, compiled, spec, attempts[0]).None? {
        var rest := attempts[1..];
        assert r == Retry(cfg, env, tracker, programLst, compiled, spec, rest);
        RetryTakesFirstValidRound(cfg, env, tracker, programLst, compiled, spec, rest);
        if r != Failure(RetriesExhausted) {
          var k :| 0 <= k < |rest|
            && (forall j :: 0 <= j < k ==> RoundInvalid(cfg, env, programLst, compiled, rest[j]))
            && Round(cfg, env, tracker, programLst, compiled, spec, rest[k]) == Some(r);
          InvalidPrefixExtends(cfg, env, programLst, compiled, attempts, k);
          assert rest[k] == attempts[k + 1];
        }
      } else {
        assert Round(cfg, env, tracker, programLst, compiled, spec, attempts[0]) == Some(r);
      }
    }
  }

  /** `mutate`: with the coin below `mutation_probability` a point mutation of
      the decoded parent, otherwise a fresh sample; either way bound to the
      parent's search space. */
  function Mutate(m: Mutator, env: Env, dna: Dna, draws: MutateDraws): (r: Result<Dna, MutateError>)
    requires CombosWithin(env.cat)
    requires 0.0 <= draws.coin < 1.0
    ensures m.cfg.mutationProbability <= draws.coin ==> r == Success(Dna(draws.sample, dna.spec))
    ensures draws.coin < m.cfg.mutationProbability && r.Success? ==>
      Offspring(m.cfg, env, m.outputDict, dna.program.programLst,
                env.build(dna.program.programLst, dna.program.lossWeight).program,
                dna.spec, r.value)
    ensures draws.coin < m.cfg.mutationProbability ==>
      var compiled := env.build(dna.program.programLst, dna.program.lossWeight).program;
      (r == Failure(RetriesExhausted) <==>
         forall j :: 0 <= j < |draws.attempts| ==>
           RoundInvalid(m.cfg, env, dna.program.programLst, compiled, draws.attempts[j]))
    ensures draws.coin < m.cfg.mutationProbability && r != Failure(RetriesExhausted) ==>
      var compiled := env.build(dna.program.programLst, dna.program.lossWeight).program;
      exists k :: 0 <= k < |draws.attempts|
        && (forall j :: 0 <= j < k ==>
              RoundInvalid(m.cfg, env, dna.program.programLst, compiled, draws.attempts[j]))
        && Round(m.cfg, env, m.outputDict, dna.program.programLst, compiled, dna.spec,
                 draws.attempts[k]) == Some(r)
  {
    if draws.coin < m.cfg.mutationProbability then
      var compiled := env.build(dna.program.programLst, dna.program.lossWeight).program;
      RetryTakesFirstValidRound(m.cfg, env, m.outputDict, dna.program.programLst, compiled, dna.spec,
                                draws.attempts);
      Retry(m.cfg, env, m.outputDict, dna.program.programLst, compiled, dna.spec, draws.attempts)
    else
      Success(Dna(draws.sample, dna.spec))
  }

  /** A structural mutation resets the loss weight to the class default: a
      successful round whose target is not the loss node carries no loss
      weight, whether or not the drawn pair differs from the old entry. */
  lemma StructuralMutationDropsLossWeight(cfg: MutatorConfig, cat: Catalogue, programLst: seq<ProgramEntry>,
                                          compiled: Compiled, a: Attempt)
    requires CombosWithin(cat)
    requires SampleNodeIdx(cfg, |compiled.opsLst|, a.nodePick).Success?
    requires !compiled.opsLst[SampleNodeIdx(cfg, |compiled.opsLst|, a.nodePick).value.nodeIdx].kind.LossNode?
    requires AlterNodeIdx(cfg, cat, programLst, compiled, a).Success?
    ensures AlterNodeIdx(cfg, cat, programLst, compiled, a).value.lossWeight == None
  {
  }

  /** Every weight the loss node allows is the outcome of some draw. */
  lemma AlterContinuousReachesEvery(programLst: seq<ProgramEntry>, compiled: Compiled, w: real)
    requires LossWeightAllowed(compiled, w)
    ensures exists pick: nat :: AlterContinuous(programLst, compiled, pick) == Success(Altered(programLst, Some(w)))
  {
    var weights := compiled.opsLst[|compiled.opsLst| - 1].kind.lossWeights;
    var i :| 0 <= i < |weights| && weights[i] == w;
    assert AlterContinuous(programLst, compiled, i) == Success(Altered(programLst, Some(w)));
  }

  /** Every candidate valid for target `t` is the outcome of some pair draw. */
  lemma AlterStructuralReachesEvery(cfg: MutatorConfig, cat: Catalogue, programLst: seq<ProgramEntry>,
                                    compiled: Compiled, t: Target, p: ProgramEntry)
    requires CombosWithin(cat)
    requires LowestMutable(cfg) <= t.nodeIdx < |compiled.opsLst|
    requires !cfg.adjustLossWeight ==> t.nodeIdx < |compiled.opsLst| - 1
    requires t.nIdx + cfg.numInputs == t.nodeIdx
    requires !compiled.opsLst[t.nodeIdx].kind.LossNode?
    requires ValidReplacementAt(cfg, cat, compiled, t.nIdx, p)
    ensures exists pairPick: nat ::
      AlterStructural(cfg, cat, programLst, compiled, t, pairPick)
      == Success(Altered(Splice(programLst, t.nIdx, p), None))
  {
    var allInputs := PyPrefix(compiled.opsLst, t.nodeIdx - 1);
    var isLeaf := t.nodeIdx in compiled.leaves;
    var cands := ValidPairs(cat, allInputs, isLeaf, compiled.opsLst[t.nodeIdx].odtype);
    ValidPairsExact(cat, allInputs, isLeaf, compiled.opsLst[t.nodeIdx].odtype, p);
    var i :| 0 <= i < |cands| && cands[i] == p;
    assert Choose(cands, i) == Some(p);
    assert AlterStructural(cfg, cat, programLst, compiled, t, i)
      == Success(Altered(Splice(programLst, t.nIdx, p), None));
  }

  /** Every candidate valid for the drawn target is the outcome of some draw,
      and is then written at the target position. */
  lemma AlterNodeIdxReachesEveryCandidate(cfg: MutatorConfig, cat: Catalogue, programLst: seq<ProgramEntry>,
                                          compiled: Compiled, nodePick: nat, weightPick: nat, p: ProgramEntry)
    requires CombosWithin(cat)
    requires SampleNodeIdx(cfg, |compiled.opsLst|, nodePick).Success?
    requires ValidReplacementAt(cfg, cat, compiled, SampleNodeIdx(cfg, |compiled.opsLst|, nodePick).value.nIdx, p)
    ensures exists pairPick: nat ::
      AlterNodeIdx(cfg, cat, programLst, compiled, Attempt(nodePick, pairPick, weightPick))
      == Success(Altered(Splice(programLst, SampleNodeIdx(cfg, |compiled.opsLst|, nodePick).value.nIdx, p), None))
  {
    var t := SampleNodeIdx(cfg, |compiled.opsLst|, nodePick).value;
    AlterStructuralReachesEvery(cfg, cat, programLst, compiled, t, p);
    var i: nat :| AlterStructural(cfg, cat, programLst, compiled, t, i)
                  == Success(Altered(Splice(programLst, t.nIdx, p), None));
    assert AlterNodeIdx(cfg, cat, programLst, compiled, Attempt(nodePick, i, weightPick))
      == AlterStructural(cfg, cat, programLst, compiled, t, i);
  }
}

=== FILE: programs.dfy ===
/** The symbolic program representation the evolutionary search works on, and
    the collaborators it consumes without seeing their code: the program
    builder, the operator catalogue and the output fingerprint. These are
    function-valued fields, so every property proved elsewhere holds for any
    behaviour they may have. */
module Programs {
  import opened Wrappers

  /** An operator class of the catalogue (the loss operator is one of them). */
  type OpClass = nat
  /** An output data type, as inferred by an operator. */
  type DType = nat
  /** The search-space specification a genome is bound to. */
  type SpecId = nat

  /** One entry of `program_lst`: the operator's index in the catalogue and the
      indices, into the compiled node list, of its inputs. */
  datatype ProgramEntry = ProgramEntry(opIdx: nat, inputIdxs: seq<nat>)

  datatype NodeKind =
    | InputNode
    | OperatorNode(cls: OpClass)
    | LossNode(lossWeights: seq<real>)

  datatype CompiledNode = CompiledNode(kind: NodeKind, odtype: DType)

  /** A compiled program: input nodes first, then one node per `program_lst`
      entry; `leaves` are the nodes whose output feeds no other node. */
  datatype Compiled = Compiled(opsLst: seq<CompiledNode>, leaves: set<nat>)

  /** What the program builder returns: the compiled program and whether the
      whole program is structurally valid. */
  datatype Built = Built(program: Compiled, valid: bool)

  /** A program specification. `lossWeight` is `None` when it was left at the
      specification class's default value. */
  datatype ProgramSpec = ProgramSpec(
    programLst: seq<ProgramEntry>,
    lossWeight: Option<real>,
    duplicate: bool,
    reward: real,
    hashOutput: real)

  /** A genome: an encoded program specification bound to a search space. The
      codec is transparent here, so decoding is reading `program`. */
  datatype Dna = Dna(program: ProgramSpec, spec: SpecId)

  /** The fingerprint stored in a genome's encoded form: its last decision
      value, which is the specification's `hashOutput`. */
  function Fingerprint(d: Dna): real {
    d.program.hashOutput
  }

  /** The operator catalogue and the capabilities of its operator classes. */
  datatype Catalogue = Catalogue(
    operators: seq<OpClass>,
    lossOp: OpClass,
    // the input-index combinations an operator class accepts over range(n)
    inputCombos: (OpClass, nat) -> seq<seq<nat>>,
    // the operator class's input-validity precheck
    precheck: (OpClass, seq<CompiledNode>) -> bool,
    // output type of an operator built from input indices and input types
    outDtype: (OpClass, seq<nat>, seq<DType>) -> DType)

  /** Everything a mutation consumes from outside: the catalogue, the program
      builder and the fingerprint of a compiled program. */
  datatype Env = Env(
    cat: Catalogue,
    build: (seq<ProgramEntry>, Option<real>) -> Built,
    hashOf: Compiled -> real)

  predicate InputsIn(combo: seq<nat>, n: nat) {
    forall j :: 0 <= j < |combo| ==> combo[j] < n
  }

  /** The enumerator of input combinations only yields indices from the range
      it is given. */
  ghost predicate CombosWithin(cat: Catalogue) {
    forall c: OpClass, n: nat, k ::
      0 <= k < |cat.inputCombos(c, n)| ==> InputsIn(cat.inputCombos(c, n)[k], n)
  }

  /** Python's `s[:k]`: a negative `k` counts from the end. */
  function PyPrefix<T>(s: seq<T>, k: int): (r: seq<T>)
    ensures 0 <= k ==> |r| == (if k <= |s| then k else |s|)
    ensures k < 0 ==> |r| == (if -k <= |s| then |s| + k else 0)
    ensures r == s[..|r|]
  {
    if 0 <= k then (if k <= |s| then s[..k] else s)
    else if -k <= |s| then s[..|s| + k]
    else []
  }

  /** `random.choice(xs)` with the random draw passed in as `pick`; it raises
      on an empty list, which is `None` here. */
  function Choose<T>(xs: seq<T>, pick: nat): (r: Option<T>)
    ensures r.Some? <==> |xs| > 0
    ensures r.Some? ==> r.value in xs
    ensures pick < |xs| ==> r == Some(xs[pick])
  {
    if |xs| == 0 then None else Some(xs[pick % |xs|])
  }

  /** Python's `list(range(lo, hi))`. */
  function Range(lo: nat, hi: nat): (r: seq<nat>)
    ensures |r| == (if lo <= hi then hi - lo else 0)
    ensures forall i :: 0 <= i < |r| ==> r[i] == lo + i
    decreases hi - lo
  {
    if lo < hi then [lo] + Range(lo + 1, hi) else []
  }
}

=== FILE: wrappers.dfy ===
/** Optional values and success/failure results, used wherever the modelled
    code can come back empty-handed or raise. */
module Wrappers {

  datatype Option<+T> = None | Some(value: T)

  /** `Failure` stands for an exception escaping the modelled operation. */
  datatype Result<+R, +E> = Success(value: R) | Failure(error: E)
}
